=== FILE: README.md ===
# Post-login risk-decision handlers, modelled in Dafny

This project models the two post-login hooks of the forter-auth0 integration. On
every login, a hook sends the login's signals (account id, customer IP, user agent,
fraud-token cookie, event time) to the Forter risk service. It then acts on the
verdict: it lets the login through, denies it, or asks for multi-factor
authentication. On a user's first login, the fuller hook treats the event as a sign-up.
When that sign-up is declined, the hook gets an Auth0 management token, blocks the
account, and then denies the login.

Each hook is a pure function. Its inputs are the login event, the decision
response body, the access token, the event time and the runtime's `encodeURI`. It
returns a `Run`: the ordered trace of effects it produces, plus the exception it
ended with, if any. The effects are the sign-up check, the login check, the token
request, the block PATCH, the deny and the multi-factor enable. Requests are records,
not JSON strings. A field that is `undefined` in JavaScript is `None` here, and
`JSON.stringify` leaves it out of the body.

Modules:

- `Strings` (strings.dfy) models `String.prototype.includes` against a
  reference definition ("occurs at some index").
- `Forter` (forter.dfy) holds the closed `Verdict` type and its wire names, the
  decision-request records, the decision URLs with a parser that inverts them, and
  `isFirstEvent`.
- `Auth0` (auth0.dfy) holds the token request, the block request, and
  `getTestIpByEmail`. That lookup is checked against an ordered rule table.
- `Effects` (effects.dfy) holds the effect trace, counting by kind, and the
  verdict-to-action mapping that both hooks share.
- `LoginEvent` (event.dfy) holds the fields of the Auth0 event that the hooks read.
  Every secret is a string, and `IS_TEST_MODE` may be unset. It is read by JavaScript
  truthiness, so any non-empty string turns test mode on, even `"false"`.
- `PostLogin` (post_login.dfy) is the fuller hook, actions/onExecutePostLogin.js.
- `LoginAction` (login_action.dfy) is the login-only hook, action.js.
- `AsWritten` (as_written.dfy) models the parts of the fuller hook that the Findings
  below concern, as they are written: the sign-in branch, the sign-up branch and the
  decision requests.

Notes on the two hooks:

- In the fuller hook, the sign-in request body carries no `loginStatus` and no
  `loginMethodType` (actions/onExecutePostLogin.js:140-148). It is built exactly like
  the sign-up body. Only the login-only hook sends `PASSWORD` and `SUCCESS`.
- Neither hook distinguishes social logins. The fuller hook only has a TODO for them
  (:223), and the login-only hook always sends `PASSWORD`.
- The fuller hook reads the IP from `event.request.customerIP`
  (actions/onExecutePostLogin.js:183). The login-only hook reads it from
  `event.request.ip` (action.js:35). Both fields are in the model, and `customerIP`
  may be absent.
- The token request puts the client id in its `client_secret` field
  (actions/onExecutePostLogin.js:48). The model keeps this as written:
  `Auth0.AccessTokenRequest` states it, and `Auth0.SecretNeverSent` proves that the
  configured secret has no effect on the request.
- Forter URLs use the raw account id (:126, :150). Only the Auth0 PATCH uses
  `encodeURI(accountId)` (:74, :185).

## Model

| member | source | states |
|---|---|---|
| Strings.Includes | actions/onExecutePostLogin.js:90-97 | `email.includes(k)` holds exactly when `k` occurs in `email` at some index (the reference definition `OccursAt`) |
| Forter.ParseVerdict | actions/onExecutePostLogin.js:4-8 | reading a `forterDecision` string gives a verdict whose wire name is that same string; the three enumerated names give the three closed verdicts, any other string gives `Other` |
| Forter.ParseName | actions/onExecutePostLogin.js:4-8 | going the other way, every canonical verdict survives the trip to its wire name and back |
| Forter.AccountsUrlRoundTrip | actions/onExecutePostLogin.js:107-150 | parsing a decision URL gives back its endpoint (signup or login) and the raw, unencoded account id |
| Forter.ParsedAccountsUrl | actions/onExecutePostLogin.js:107-150 | every URL the parser accepts is exactly the URL built from the route it returns |
| Forter.DecisionRequest | actions/onExecutePostLogin.js:114-159 | the sign-up and sign-in requests, with the version header keyed as intended (see Findings): they address the raw account id at their endpoint, send the configured version under `api-version` and `Content-Type: application/json`, and carry the account id, the connection information and the event time, with no login-status or login-method field |
| Auth0.AccessTokenRequest | actions/onExecutePostLogin.js:45-60 | the token request goes to `<tenant>/oauth/token` with the client-credentials grant and audience `<tenant>/api/v2/`, and its `client_secret` field holds the client id |
| Auth0.SecretNeverSent | actions/onExecutePostLogin.js:46-51 | two configurations that differ only in their client secret produce the same token request |
| Auth0.BlockUserRequest | actions/onExecutePostLogin.js:68-81 | the block PATCH marks the user blocked, uses the fetched access token, and addresses `<tenant>/api/v2/users/` followed by the encoded account id |
| Auth0.FirstHit | actions/onExecutePostLogin.js:89-100 | returns the index of the earliest rule whose keyword occurs in the email; no earlier rule matches; `None` only when no rule matches |
| Auth0.TestIpByEmail | actions/onExecutePostLogin.js:89-100 | returns the mock IP of the first matching rule in the ordered table approve, decline, verify, and the real IP when none matches; an email containing "approve" always gets 0.0.0.1, whatever the real IP |
| Auth0.TestIpIsMockOrReal | actions/onExecutePostLogin.js:27-31 | the test-mode lookup only ever answers with one of the three mock IPs or the real IP |
| Effects.LoginTerminal | action.js:73-83 | DECLINE, and only DECLINE, gives a deny with the hook's message; VERIFICATION_REQUIRED, and only it, gives multi-factor with policy "any"; APPROVE or any other value gives no action |
| Forter.IsFirstEvent | actions/onExecutePostLogin.js:167-169 | a login is the first one exactly when `logins_count == 1`; its contract is the clause of `PostLogin.OnExecutePostLogin` stating that the sign-up check is issued iff `logins_count == 1` |
| PostLogin.ResolveCustomerIp | actions/onExecutePostLogin.js:183-186 | outside test mode the request IP passes through unchanged; in test mode with an email it is the email lookup `Auth0.TestIpByEmail` applied to the request IP; the IP changes only in test mode, and only to a mock IP; an "approve" email gets 0.0.0.1; a test-mode user with no email makes the hook throw |
| PostLogin.SignupPath | actions/onExecutePostLogin.js:191-208 | the sign-up check comes first; a token request, a block and a deny each occur exactly once if the verdict is DECLINE and never otherwise; no multi-factor |
| PostLogin.LoginPath | actions/onExecutePostLogin.js:209-220 | the login check comes first; one deny exactly on DECLINE, one multi-factor exactly on VERIFICATION_REQUIRED; no token request and no block |
| PostLogin.OnExecutePostLogin | actions/onExecutePostLogin.js:167-221 | exactly one risk check is issued, and it is the sign-up check iff `logins_count == 1`; it carries the resolved IP and the raw account id; a block happens iff a first login is declined, and then the trace is exactly check, token request, block, deny in that order; DECLINE is never let through; VERIFICATION_REQUIRED never blocks or denies; at most one terminal action; the only exception is a test-mode user without an email, which happens before any request |
| PostLogin.FirstLoginDeclined | actions/onExecutePostLogin.js:199-205 | a declined first login produces exactly the sign-up check, the token request, the block of `encodeURI(accountId)` with the fetched token, and the deny "sorry, something went wrong.", in that order |
| PostLogin.FirstLoginNotDeclined | actions/onExecutePostLogin.js:199-208 | a first login with any other verdict, VERIFICATION_REQUIRED included, produces the sign-up check alone |
| PostLogin.ReturningLogin | actions/onExecutePostLogin.js:209-220 | a returning login produces the login check, then a deny on DECLINE, multi-factor "any" on VERIFICATION_REQUIRED, and nothing otherwise |
| PostLogin.DeclineEmailIp | actions/onExecutePostLogin.js:89-95 | the email "decline@x.com" gets the mock decline IP 0.0.0.2, whatever the real IP |
| PostLogin.DeclineEmailScenario | actions/onExecutePostLogin.js:178-206 | a test-mode first login by "decline@x.com" sends 0.0.0.2, and when the service declines, the hook blocks `encodeURI("u1")` within a four-effect trace |
| LoginAction.AccountId | action.js:31 | the account id is the `user_id` of the first identity; a user with no identities makes the hook throw |
| LoginAction.LoginRequest | action.js:33-65 | the login request addresses the raw account id at the login endpoint of the placeholder tenant and sends `api-version: 2.36` |
| LoginAction.OnExecutePostLogin | action.js:29-84 | exactly one login check, with API version "2.36", `PASSWORD`/`SUCCESS`, and IP, user agent and token cookie taken unchanged from the request; never a sign-up check, token request or block; DECLINE gives exactly the deny "something went wrong.", VERIFICATION_REQUIRED exactly multi-factor "any", anything else no action; at most one terminal action |
| LoginAction.ApproveDoesNothing | action.js:73 | APPROVE produces the login check alone |
| AsWritten.ReturningLoginAsWritten | actions/onExecutePostLogin.js:211-219 | as written, the sign-in branch never denies and never enables multi-factor, whatever the service answers |
| AsWritten.UnawaitedDeclineLetThrough | actions/onExecutePostLogin.js:211-214 | for a returning login the service declines, the as-written branch emits no deny, while the corrected branch emits exactly one |
| AsWritten.DestructureDecision | actions/onExecutePostLogin.js:125 | destructuring a decision out of a response succeeds only through `data`, and then yields the verdict named in the body; through a member the response lacks, such as `res`, it throws |
| AsWritten.FirstLoginAsWritten | actions/onExecutePostLogin.js:193-206 | as written, the sign-up branch sends the sign-up check (without an `api-version` header) and then throws, whatever the service answered |
| AsWritten.DeclinedSignupNotBlocked | actions/onExecutePostLogin.js:125-205 | a declined first login is never blocked as written, and blocked exactly once by the corrected hook |
| AsWritten.DecisionRequestAsWritten | actions/onExecutePostLogin.js:129-132 | as written, a decision request has no `api-version` header; the configured version goes under the header name "undefined" |
| AsWritten.ApiVersionHeaderMisnamed | actions/onExecutePostLogin.js:9-15 | the as-written and corrected decision requests agree on URL and body and on the version value, and differ only in that the as-written one lacks the `api-version` header |

## Findings

| source | as written | input that shows it | evidently intended | confidence | as-written member | corrected member |
|---|---|---|---|---|---|---|
| actions/onExecutePostLogin.js:211 | `getSignInDecision(...)` is not awaited, so the tests at :213 and :217 compare a Promise with strings | `logins_count = 5`, service answers DECLINE: no deny, and the login proceeds | await the call and compare the response's `data.forterDecision` (the function returns the whole response, :149) | high (not executed) | AsWritten.ReturningLoginAsWritten | PostLogin.LoginPath |
| actions/onExecutePostLogin.js:125 | the decision is destructured from `res` of the response, which is undefined, so the line throws | `logins_count = 1`, service answers DECLINE: the sign-up request is sent, then a TypeError; no token, no block, no deny | destructure `{data: {forterDecision}}` | high (not executed) | AsWritten.FirstLoginAsWritten | PostLogin.SignupPath |
| actions/onExecutePostLogin.js:130 | the version header is keyed by `[ENUMS.HEADERS_NAMES.FORTER_API_VERSION]`, but `HEADERS_NAMES` (:9-12) has no such entry (it is in `HEADERS_VALUES`, :15), so the header is named "undefined"; :154 repeats this | any sign-up or sign-in check: it is sent without an `api-version` header | key the header by `ENUMS.HEADERS_VALUES.FORTER_API_VERSION`, i.e. `api-version` | high (not executed) | AsWritten.DecisionRequestAsWritten | Forter.DecisionRequest |

`PostLogin.OnExecutePostLogin` uses the corrected branches and the corrected
decision requests. Its `response` input is
the response body (`data`), and it compares that body's `forterDecision` with the
verdict names.

## Left out

- HTTP transport (axios), status handling, TLS, and the basic and bearer
  `Authorization` headers are left out, including the double space in `Bearer  `
  (:76). A request is an emitted record; a response is an input.
- `Date.now()` is nondeterministic, so the event time is a parameter.
- `JSON.stringify`: bodies are records. A `None` field stands for a field the
  serialiser omits.
- `encodeURI` is a foreign library call, so it is a function parameter with no
  properties. The code states no round trip for it, so no percent-decoding round trip
  is claimed. A `URIError` it might throw is not modelled.
- `forterDecision` is modelled as a string. Non-string or missing decision values
  are not modelled.
- The Forter API key (basic-auth username) is not modelled, because it only goes
  into the left-out auth header.
- The test-user table in action.js:15-25 is left out. Its keys are colliding
  placeholders, and its only use is commented out (:40).
- Console logging in action.js (:37, :69) is output only.
- Secret loading and the `accountId = user_id` default at
  actions/onExecutePostLogin.js:182 are left out. That default names an undefined
  identifier, so `User.accountId` is taken as given.
- A failed token or block request, and the retry and fallback policy, are left out.
  The code has none; :222 is only a TODO.
- app.js (a demo web server) and social_login.js (a webhook dump followed by an
  unconditional multi-factor enable) hold no decision logic.
- AsWritten.FirstLoginAsWritten: requires the customer IP to resolve. The branch it
  models starts after :186, and the failure before it is already modelled by
  `PostLogin.ResolveCustomerIp`.

=== FILE: as_written.dfy ===
/**
 * Two branches of actions/onExecutePostLogin.js as they are written, beside the
 * corrected branches the rest of the model uses.
 */
module AsWritten {
  import opened Wrappers
  import Forter
  import opened Effects
  import opened LoginEvent
  import PostLogin

  /** A value the handler compares against the verdict names. */
  datatype JsValue = JsString(s: string) | PendingPromise

  /** `===` against a string literal: only a string with those characters is equal. */
  predicate StrictEquals(v: JsValue, literal: string) {
    v.JsString? && v.s == literal
  }

  /** `getSignInDecision(...)` called without `await`: the handler holds the promise, not the response. */
  function UnawaitedDecision(response: Forter.RiskResponse): JsValue {
    PendingPromise
  }

  /** The sign-in branch as written: two independent `===` tests on the unawaited value. */
  function ReturningLoginAsWritten(check: Forter.CheckRequest, response: Forter.RiskResponse): (t: seq<Effect>)
    ensures |t| > 0 && t[0] == LoginCheck(check)
    ensures Terminals(t) == 0
  {
    var forterDecision := UnawaitedDecision(response);
    var deny := if StrictEquals(forterDecision, "DECLINE") then [Deny(PostLogin.AccessDeny)] else [];
    var mfa := if StrictEquals(forterDecision, "VERIFICATION_REQUIRED") then [Mfa(MfaPolicy)] else [];
    CountConcatAll(deny, mfa);
    CountConcatAll([LoginCheck(check)], deny + mfa);
    [LoginCheck(check)] + (deny + mfa)
  }

  /** A returning login the service DECLINEs is let through as written, and denied once corrected. */
  lemma UnawaitedDeclineLetThrough(check: Forter.CheckRequest)
    ensures Count(ReturningLoginAsWritten(check, Forter.RiskResponse("DECLINE")), DenyKind) == 0
    ensures Count(PostLogin.LoginPath(check, Forter.ParseVerdict("DECLINE")), DenyKind) == 1
  {
  }

  /** An axios response, reduced to its one object-valued member: the decision body under `data`. */
  datatype AxiosResponse = AxiosResponse(data: Forter.RiskResponse)

  /** The member `name` of a response, or `None` when the response lacks it (JavaScript's `undefined`). */
  function BodyMember(response: AxiosResponse, name: string): Option<Forter.RiskResponse> {
    if name == "data" then Some(response.data) else None
  }

  /** Destructuring `{<name>: {forterDecision}}`: throws when the response lacks the member `name`. */
  function DestructureDecision(response: AxiosResponse, name: string): (r: Result<Forter.Verdict, Fault>)
    ensures r.Success? <==> name == "data"
    ensures r.Success? ==> r.value.Name() == response.data.forterDecision
    ensures r.Failure? ==> r.error == ResponseDestructure
  {
    match BodyMember(response, name)
    case None => Failure(ResponseDestructure)
    case Some(body) => Success(Forter.ParseVerdict(body.forterDecision))
  }

  /**
   * The sign-up branch as written: the sign-up request goes out, then reading the
   * decision from `res` throws, so nothing further happens whatever the service said.
   */
  function FirstLoginAsWritten(
    event: Event, eventTime: int, encodeUri: string -> string, response: AxiosResponse, accessToken: string): (run: Run)
    requires PostLogin.ResolveCustomerIp(event).Success?
    ensures run.fault == Some(ResponseDestructure)
    ensures |run.trace| == 1 && run.trace[0].SignupCheck?
    ensures "api-version" !in run.trace[0].check.headers
  {
    var customerIP := PostLogin.ResolveCustomerIp(event).value;
    var check := DecisionRequestAsWritten(event.secrets.ForterClient(), Forter.Signup, event.user.accountId,
                                          PostLogin.Connection(event, customerIP), eventTime);
    match DestructureDecision(response, "res")
    case Failure(f) => Run([SignupCheck(check)], Some(f))
    case Success(verdict) =>
      Run(PostLogin.SignupPath(check, verdict, event.secrets.Auth0Client(), encodeUri(event.user.accountId), accessToken), None)
  }

  /** A first login the service DECLINEs is never blocked as written, and blocked once corrected. */
  lemma DeclinedSignupNotBlocked(
    event: Event, eventTime: int, encodeUri: string -> string, response: AxiosResponse, accessToken: string)
    requires PostLogin.ResolveCustomerIp(event).Success?
    requires event.loginsCount == 1 && response.data.forterDecision == "DECLINE"
    ensures Count(FirstLoginAsWritten(event, eventTime, encodeUri, response, accessToken).trace, BlockKind) == 0
    ensures Count(PostLogin.OnExecutePostLogin(event, eventTime, encodeUri, response.data, accessToken).trace, BlockKind) == 1
  {
  }

  /**
   * The decision requests as written: the version header is keyed by
   * `[ENUMS.HEADERS_NAMES.FORTER_API_VERSION]`, an entry that table does not have.
   */
  function DecisionRequestAsWritten(client: Forter.Client, e: Forter.Endpoint, accountId: string,
                                    conn: Forter.ConnectionInformation, eventTime: int): (r: Forter.CheckRequest)
    ensures "api-version" !in r.headers
    ensures "undefined" in r.headers && r.headers["undefined"] == client.apiVersion
  {
    Forter.BuildDecisionRequest(Forter.HeadersNames, client, e, accountId, conn, eventTime)
  }

  /**
   * Every decision request as written goes out without an `api-version` header; the
   * corrected request differs from it in that header's name only.
   */
  lemma ApiVersionHeaderMisnamed(client: Forter.Client, e: Forter.Endpoint, accountId: string,
                                 conn: Forter.ConnectionInformation, eventTime: int)
    ensures
      var written := DecisionRequestAsWritten(client, e, accountId, conn, eventTime);
      var intended := Forter.DecisionRequest(client, e, accountId, conn, eventTime);
      && "api-version" !in written.headers
      && "api-version" in intended.headers
      && written.url == intended.url && written.payload == intended.payload
      && written.headers["undefined"] == intended.headers["api-version"]
  {
  }
}

=== FILE: auth0.dfy ===
/**
 * The identity-provider admin client (`Auth0Client` in actions/onExecutePostLogin.js):
 * the client-credentials token request, the block PATCH, and the test-mode IP lookup.
 */
module Auth0 {
  import opened Wrappers
  import opened Strings

  /** Configuration a client is built from (`new Auth0Client(event.secrets)`). */
  datatype Client = Client(tenant: string, clientId: string, clientSecret: string)

  /** The JSON body sent to `/oauth/token`. */
  datatype TokenPayload = TokenPayload(clientId: string, clientSecret: string, audience: string, grantType: string)

  datatype TokenRequest = TokenRequest(url: string, payload: TokenPayload)

  /** The `PATCH /api/v2/users/{id}` call; `blocked` is the single field of its body. */
  datatype BlockRequest = BlockRequest(url: string, bearer: string, blocked: bool)

  const ClientCredentials := "client_credentials"

  /**
   * `getAccessToken`. As written, the `client_secret` field carries the client id,
   * so the configured secret never reaches the token endpoint.
   */
  function AccessTokenRequest(client: Client): (r: TokenRequest)
    ensures r.payload.clientId == client.clientId
    ensures r.payload.clientSecret == client.clientId
    ensures r.payload.grantType == ClientCredentials
    ensures IsPrefix(client.tenant, r.url) && r.url[|client.tenant|..] == "/oauth/token"
    ensures r.payload.audience == client.tenant + "/api/v2/"
  {
    StripPrefix(client.tenant, "/oauth/token");
    TokenRequest(client.tenant + "/oauth/token",
                 TokenPayload(client.clientId, client.clientId, client.tenant + "/api/v2/", ClientCredentials))
  }

  /** The token request does not depend on the configured client secret at all. */
  lemma SecretNeverSent(a: Client, b: Client)
    requires a.tenant == b.tenant && a.clientId == b.clientId
    ensures AccessTokenRequest(a) == AccessTokenRequest(b)
  {
  }

  function UsersBase(tenant: string): string {
    tenant + "/api/v2/users/"
  }

  /** `blockedAccess`: the user path segment is the ENCODED account id, the body is `{blocked: true}`. */
  function BlockUserRequest(client: Client, encodedAccountId: string, accessToken: string): (r: BlockRequest)
    ensures r.blocked
    ensures r.bearer == accessToken
    ensures IsPrefix(UsersBase(client.tenant), r.url)
    ensures r.url[|UsersBase(client.tenant)|..] == encodedAccountId
  {
    StripPrefix(UsersBase(client.tenant), encodedAccountId);
    BlockRequest(UsersBase(client.tenant) + encodedAccountId, accessToken, true)
  }

  const ApprovedIp := "0.0.0.1"
  const DeclineIp := "0.0.0.2"
  const MfaIp := "0.0.0.4"

  /** One entry of the test-mode lookup: an email containing `keyword` is given `ip`. */
  datatype MockRule = MockRule(keyword: string, ip: string)

  /** The lookup as an ordered rule table: earlier rules take precedence. */
  const MockRules: seq<MockRule> := [
    MockRule("approve", ApprovedIp),
    MockRule("decline", DeclineIp),
    MockRule("verify", MfaIp)
  ]

  /** The index of the earliest rule whose keyword occurs in `email`, if any. */
  function FirstHit(rules: seq<MockRule>, email: string): (r: Option<nat>)
    ensures r.Some? ==> r.value < |rules| && Includes(email, rules[r.value].keyword)
    ensures r.Some? ==> forall j :: 0 <= j < r.value ==> !Includes(email, rules[j].keyword)
    ensures r.None? ==> forall j :: 0 <= j < |rules| ==> !Includes(email, rules[j].keyword)
  {
    if |rules| == 0 then None
    else if Includes(email, rules[0].keyword) then Some(0)
    else
      match FirstHit(rules[1..], email)
      case None => None
      case Some(k) => Some(k + 1)
  }

  /**
   * `getTestIpByEmail`: the mock IP of the first rule of `MockRules` whose keyword
   * occurs in the email, or the real IP when none does.
   */
  function TestIpByEmail(realIp: Option<string>, email: string): (r: Option<string>)
    ensures FirstHit(MockRules, email).Some? ==> r == Some(MockRules[FirstHit(MockRules, email).value].ip)
    ensures FirstHit(MockRules, email).None? ==> r == realIp
    ensures Includes(email, "approve") ==> r == Some(ApprovedIp)
  {
    assert MockRules[1].keyword == "decline" && MockRules[2].keyword == "verify";
    if Includes(email, "approve") then Some(ApprovedIp)
    else if Includes(email, "decline") then Some(DeclineIp)
    else if Includes(email, "verify") then Some(MfaIp)
    else realIp
  }

  /** The lookup only ever answers with a mock IP or the real IP it was given. */
  lemma TestIpIsMockOrReal(realIp: Option<string>, email: string)
    ensures TestIpByEmail(realIp, email) in {Some(ApprovedIp), Some(DeclineIp), Some(MfaIp), realIp}
  {
  }
}

=== FILE: effects.dfy ===
/**
 * What a post-login handler does, as an ordered trace: the outbound requests it
 * builds and the terminal action it asks of the identity provider.
 */
module Effects {
  import opened Wrappers
  import Forter
  import Auth0

  datatype Effect =
    | SignupCheck(check: Forter.CheckRequest)
    | LoginCheck(check: Forter.CheckRequest)
    | TokenRequest(token: Auth0.TokenRequest)
    | Block(block: Auth0.BlockRequest)
    | Deny(reason: string)
    | Mfa(policy: string)

  /** Why an invocation stops with an uncaught exception. */
  datatype Fault =
    | EmailUndefined        // `email.includes` on a user without an email
    | NoIdentity            // `identities[0].user_id` on an empty identity list
    | ResponseDestructure   // destructuring a member the response does not have

  /** The effects emitted before the invocation ended, and the exception it ended with, if any. */
  datatype Run = Run(trace: seq<Effect>, fault: Option<Fault>)

  datatype Kind = SignupKind | LoginKind | TokenKind | BlockKind | DenyKind | MfaKind

  function KindOf(e: Effect): Kind {
    match e
    case SignupCheck(_) => SignupKind
    case LoginCheck(_) => LoginKind
    case TokenRequest(_) => TokenKind
    case Block(_) => BlockKind
    case Deny(_) => DenyKind
    case Mfa(_) => MfaKind
  }

  /** How many effects of kind `k` the trace holds. */
  function Count(trace: seq<Effect>, k: Kind): (n: nat)
    ensures n <= |trace|
    ensures n == 0 <==> forall i :: 0 <= i < |trace| ==> KindOf(trace[i]) != k
  {
    if |trace| == 0 then 0
    else
      assert forall i :: 1 <= i < |trace| ==> trace[i] == trace[1..][i - 1];
      (if KindOf(trace[0]) == k then 1 else 0) + Count(trace[1..], k)
  }

  lemma {:induction false} CountConcat(a: seq<Effect>, b: seq<Effect>, k: Kind)
    ensures Count(a + b, k) == Count(a, k) + Count(b, k)
    decreases |a|
  {
    if |a| > 0 {
      assert (a + b)[1..] == a[1..] + b;
      CountConcat(a[1..], b, k);
    } else {
      assert a + b == b;
    }
  }

  /** Counts over a concatenation, for every kind at once. */
  lemma CountConcatAll(a: seq<Effect>, b: seq<Effect>)
    ensures forall k :: Count(a + b, k) == Count(a, k) + Count(b, k)
  {
    forall k {
      CountConcat(a, b, k);
    }
  }

  /** The number of terminal actions (deny or multi-factor) in a trace. */
  function Terminals(trace: seq<Effect>): nat {
    Count(trace, DenyKind) + Count(trace, MfaKind)
  }

  const MfaPolicy := "any"

  /**
   * The login-check verdict mapping both handlers share: DECLINE denies with the
   * handler's message, VERIFICATION_REQUIRED enables multi-factor with policy "any",
   * anything else lets the login proceed.
   */
  function LoginTerminal(v: Forter.Verdict, denyMessage: string): (r: Option<Effect>)
    ensures r == Some(Deny(denyMessage)) <==> v == Forter.Decline
    ensures r == Some(Mfa(MfaPolicy)) <==> v == Forter.VerificationRequired
    ensures r.None? <==> v.Approve? || v.Other?
  {
    match v
    case Decline => Some(Deny(denyMessage))
    case VerificationRequired => Some(Mfa(MfaPolicy))
    case _ => None
  }

  /** The terminal action as a trace of length at most one. */
  function Trace(e: Option<Effect>): (t: seq<Effect>)
    ensures |t| <= 1
    ensures forall k :: Count(t, k) == (if e.Some? && KindOf(e.value) == k then 1 else 0)
  {
    match e
    case Some(x) => [x]
    case None => []
  }
}

=== FILE: event.dfy ===
/** The parts of the identity provider's post-login event that the handlers read. */
module LoginEvent {
  import opened Wrappers
  import Forter
  import Auth0

  datatype Identity = Identity(userId: string)

  /** `event.user`: `accountId` and `email` are read by one handler, `identities` by the other. */
  datatype User = User(accountId: string, email: Option<string>, identities: seq<Identity>)

  /**
   * `event.request`. One handler reads `customerIP`, the other `ip`; `customerIP` may be
   * absent. `forterToken` is the `query.forterToken` parameter and may be absent too.
   */
  datatype Request = Request(ip: string, customerIP: Option<string>, userAgent: string, forterToken: Option<string>)

  /** `event.secrets`: every secret is a string; `IS_TEST_MODE` may be unset. */
  datatype Secrets = Secrets(
    isTestMode: Option<string>,
    forterTenantId: string,
    forterApiVersion: string,
    auth0Tenant: string,
    auth0ClientId: string,
    auth0ClientSecret: string)
  {
    function ForterClient(): Forter.Client {
      Forter.Client(forterTenantId, forterApiVersion)
    }

    function Auth0Client(): Auth0.Client {
      Auth0.Client(auth0Tenant, auth0ClientId, auth0ClientSecret)
    }
  }

  /** `event`; `loginsCount` is `event.stats.logins_count`. */
  datatype Event = Event(user: User, request: Request, loginsCount: int, secrets: Secrets)

  /** JavaScript truthiness of an optional string: set and non-empty (so "false" is truthy). */
  predicate Truthy(v: Option<string>) {
    v.Some? && v.value != ""
  }
}

=== FILE: forter.dfy ===
/**
 * The risk-service client (`ForterClient` in actions/onExecutePostLogin.js):
 * the verdict type, the decision-request records and their URLs, and the
 * first-login classification.
 */
module Forter {
  import opened Wrappers
  import opened Strings

  /** The decision the risk service returns in `forterDecision`. Any other string is kept as `Other`. */
  datatype Verdict = Approve | Decline | VerificationRequired | Other(name: string)
  {
    /** The string the service sends for this verdict. */
    function Name(): string {
      match this
      case Approve => "APPROVE"
      case Decline => "DECLINE"
      case VerificationRequired => "VERIFICATION_REQUIRED"
      case Other(n) => n
    }

    /** `Other` never carries one of the three enumerated names. */
    predicate Canonical() {
      Other? ==> name != "APPROVE" && name != "DECLINE" && name != "VERIFICATION_REQUIRED"
    }
  }

  /** Reads a `forterDecision` string; the handlers compare it with `===`/`==` against the enumerated names. */
  function ParseVerdict(s: string): (v: Verdict)
    ensures v.Name() == s
    ensures v.Canonical()
  {
    if s == "APPROVE" then Approve
    else if s == "DECLINE" then Decline
    else if s == "VERIFICATION_REQUIRED" then VerificationRequired
    else Other(s)
  }

  /** Canonical verdicts and strings are in one-to-one correspondence. */
  lemma ParseName(v: Verdict)
    requires v.Canonical()
    ensures ParseVerdict(v.Name()) == v
  {
  }

  /** The body (`response.data`) of a decision response; only `forterDecision` is read. */
  datatype RiskResponse = RiskResponse(forterDecision: string)

  /** Configuration a client is built from (`new ForterClient(event.secrets)`). */
  datatype Client = Client(tenantId: string, apiVersion: string)

  datatype ConnectionInformation = ConnectionInformation(
    customerIP: Option<string>,
    userAgent: string,
    forterTokenCookie: Option<string>)

  /** The JSON body of a decision request; `None` fields are absent from the body. */
  datatype CheckPayload = CheckPayload(
    accountId: string,
    connectionInformation: ConnectionInformation,
    eventTime: int,
    loginMethodType: Option<string>,
    loginStatus: Option<string>)

  /** A POST to one of the two decision endpoints, with its header names and values. */
  datatype CheckRequest = CheckRequest(url: string, headers: map<string, string>, payload: CheckPayload)

  const ApiVersionHeader := "api-version"
  const ContentTypeHeader := "Content-Type"
  const AppJson := "application/json"

  /** `ENUMS.HEADERS_NAMES` of the fuller hook: it has no `FORTER_API_VERSION` entry. */
  const HeadersNames: map<string, string> := map["CONTENT_TYPE" := ContentTypeHeader, "AUTHORIZATION" := "Authorization"]

  /** `ENUMS.HEADERS_VALUES` of the fuller hook: this is where `FORTER_API_VERSION` is. */
  const HeadersValues: map<string, string> := map["APP_JSON" := AppJson, "FORTER_API_VERSION" := ApiVersionHeader]

  /** The key of a computed property `[table.name]`: a missing entry is `undefined`, whose key is "undefined". */
  function PropertyKey(table: map<string, string>, name: string): string {
    if name in table then table[name] else "undefined"
  }

  /**
   * The headers of a decision request whose version header is keyed by
   * `[versionTable.FORTER_API_VERSION]`.
   */
  function DecisionHeaders(versionTable: map<string, string>, apiVersion: string): map<string, string> {
    map[PropertyKey(versionTable, "FORTER_API_VERSION") := apiVersion,
        PropertyKey(HeadersNames, "CONTENT_TYPE") := HeadersValues["APP_JSON"]]
  }

  datatype Endpoint = Signup | Login

  /** The endpoint and the account a decision URL addresses. */
  datatype Route = Route(endpoint: Endpoint, accountId: string)

  function AccountsBase(tenantId: string): string {
    "https://" + tenantId + ".api.forter-secure.com/v2/accounts"
  }

  function Segment(e: Endpoint): string {
    match e
    case Signup => "/signup/"
    case Login => "/login/"
  }

  /** `${forterBaseUrl}/signup/${accountId}` or `.../login/${accountId}`: the account id goes in unencoded. */
  function AccountsUrl(tenantId: string, e: Endpoint, accountId: string): string {
    AccountsBase(tenantId) + Segment(e) + accountId
  }

  /** Recovers the endpoint and account id from a decision URL of the given tenant. */
  function ParseAccountsUrl(tenantId: string, url: string): Option<Route> {
    var signup := AccountsBase(tenantId) + Segment(Signup);
    var login := AccountsBase(tenantId) + Segment(Login);
    if IsPrefix(signup, url) then Some(Route(Signup, url[|signup|..]))
    else if IsPrefix(login, url) then Some(Route(Login, url[|login|..]))
    else None
  }

  /** Parsing a built URL gives back the endpoint and the raw account id. */
  lemma AccountsUrlRoundTrip(tenantId: string, e: Endpoint, accountId: string)
    ensures ParseAccountsUrl(tenantId, AccountsUrl(tenantId, e, accountId)) == Some(Route(e, accountId))
  {
    var base := AccountsBase(tenantId);
    var url := AccountsUrl(tenantId, e, accountId);
    assert url == (base + Segment(e)) + accountId;
    StripPrefix(base + Segment(e), accountId);
    if e == Login {
      var signup := base + Segment(Signup);
      var k := |base| + 1;
      assert signup[k] == 's';
      assert url[k] == 'l';
      assert !IsPrefix(signup, url);
    }
  }

  /** Every URL the parser accepts is the one built from what it returns. */
  lemma ParsedAccountsUrl(tenantId: string, url: string)
    ensures ParseAccountsUrl(tenantId, url).Some? ==>
      var r := ParseAccountsUrl(tenantId, url).value;
      AccountsUrl(tenantId, r.endpoint, r.accountId) == url
  {
    var r := ParseAccountsUrl(tenantId, url);
    if r.Some? {
      var p := AccountsBase(tenantId) + Segment(r.value.endpoint);
      assert url == url[..|p|] + url[|p|..];
    }
  }

  /** `isFirstEvent`: the login that follows account creation has `logins_count === 1`. */
  predicate IsFirstEvent(loginsCount: int) {
    loginsCount == 1
  }

  /**
   * `getSignUpDecision` / `getSignInDecision` with the version header keyed through
   * `versionTable`: both build the same body (account id, connection information,
   * event time, no login fields) and differ only in the endpoint.
   */
  function BuildDecisionRequest(versionTable: map<string, string>, client: Client, e: Endpoint,
                                accountId: string, conn: ConnectionInformation, eventTime: int): CheckRequest
  {
    CheckRequest(AccountsUrl(client.tenantId, e, accountId), DecisionHeaders(versionTable, client.apiVersion),
                 CheckPayload(accountId, conn, eventTime, None, None))
  }

  /**
   * The decision requests with the version header keyed as intended, by
   * `HEADERS_VALUES.FORTER_API_VERSION` (the as-written key is in `AsWritten`).
   */
  function DecisionRequest(client: Client, e: Endpoint, accountId: string, conn: ConnectionInformation, eventTime: int): (r: CheckRequest)
    ensures ParseAccountsUrl(client.tenantId, r.url) == Some(Route(e, accountId))
    ensures ApiVersionHeader in r.headers && r.headers[ApiVersionHeader] == client.apiVersion
    ensures ContentTypeHeader in r.headers && r.headers[ContentTypeHeader] == AppJson
    ensures r.payload.accountId == accountId && r.payload.connectionInformation == conn
    ensures r.payload.eventTime == eventTime
    ensures r.payload.loginMethodType.None? && r.payload.loginStatus.None?
  {
    AccountsUrlRoundTrip(client.tenantId, e, accountId);
    BuildDecisionRequest(HeadersValues, client, e, accountId, conn, eventTime)
  }
}

=== FILE: login_action.dfy ===
/**
 * The login-only post-login handler (`exports.onExecutePostLogin` in action.js):
 * one login check with a fixed PASSWORD/SUCCESS payload, then the verdict mapping.
 */
module LoginAction {
  import opened Wrappers
  import Forter
  import opened Effects
  import opened LoginEvent

  /** The tenant id is a template placeholder in this handler, not a secret. */
  const TenantPlaceholder := "{{FORTER_TENANT_ID}}"
  const ApiVersion := "2.36"
  const DenyReason := "something went wrong."
  const PasswordMethod := "PASSWORD"
  const SuccessStatus := "SUCCESS"

  /** The account id is the `user_id` of the user's first identity; reading it throws when there is none. */
  function AccountId(user: User): (r: Result<string, Fault>)
    ensures r.Failure? <==> |user.identities| == 0
    ensures r.Failure? ==> r.error == NoIdentity
    ensures r.Success? ==> r.value == user.identities[0].userId
  {
    if |user.identities| == 0 then Failure(NoIdentity) else Success(user.identities[0].userId)
  }

  /** The login request this handler posts, addressed to the unencoded account id. */
  function LoginRequest(event: Event, accountId: string, eventTime: int): (r: Forter.CheckRequest)
    ensures Forter.ParseAccountsUrl(TenantPlaceholder, r.url) == Some(Forter.Route(Forter.Login, accountId))
    ensures "api-version" in r.headers && r.headers["api-version"] == "2.36"
  {
    Forter.AccountsUrlRoundTrip(TenantPlaceholder, Forter.Login, accountId);
    var conn := Forter.ConnectionInformation(Some(event.request.ip), event.request.userAgent, event.request.forterToken);
    Forter.CheckRequest(
      Forter.AccountsUrl(TenantPlaceholder, Forter.Login, accountId),
      map["api-version" := ApiVersion, "Content-Type" := "application/json"],
      Forter.CheckPayload(accountId, conn, eventTime, Some(PasswordMethod), Some(SuccessStatus)))
  }

  /**
   * One invocation. `response` is the body of the login-check response and
   * `eventTime` the value of `Date.now()`.
   */
  function OnExecutePostLogin(event: Event, eventTime: int, response: Forter.RiskResponse): (run: Run)
    // the only exception: a user without identities, before any request
    ensures run.fault.Some? <==> |event.user.identities| == 0
    ensures run.fault.Some? ==> run.trace == [] && run.fault == Some(NoIdentity)
    // exactly one login check, first, and nothing from the sign-up path
    ensures run.fault.None? ==> 1 <= |run.trace| <= 2 && run.trace[0].LoginCheck?
    ensures run.fault.None? ==> Count(run.trace, LoginKind) == 1 && Count(run.trace, SignupKind) == 0
    ensures Count(run.trace, TokenKind) == 0 && Count(run.trace, BlockKind) == 0
    // the payload: fixed method and status, connection information straight from the request
    ensures run.fault.None? ==>
      var accountId := event.user.identities[0].userId;
      var check := run.trace[0].check;
      && Forter.ParseAccountsUrl(TenantPlaceholder, check.url) == Some(Forter.Route(Forter.Login, accountId))
      && "api-version" in check.headers && check.headers["api-version"] == "2.36"
      && check.payload.accountId == accountId
      && check.payload.loginMethodType == Some("PASSWORD")
      && check.payload.loginStatus == Some("SUCCESS")
      && check.payload.eventTime == eventTime
      && check.payload.connectionInformation.customerIP == Some(event.request.ip)
      && check.payload.connectionInformation.userAgent == event.request.userAgent
      && check.payload.connectionInformation.forterTokenCookie == event.request.forterToken
    // the verdict mapping: at most one terminal action, each tied to its verdict
    ensures Terminals(run.trace) <= 1
    ensures run.fault.None? && response.forterDecision == "DECLINE" ==> run.trace[1..] == [Deny("something went wrong.")]
    ensures run.fault.None? && response.forterDecision == "VERIFICATION_REQUIRED" ==> run.trace[1..] == [Mfa("any")]
    ensures response.forterDecision != "DECLINE" && response.forterDecision != "VERIFICATION_REQUIRED" ==>
      |run.trace| <= 1
  {
    match AccountId(event.user)
    case Failure(f) => Run([], Some(f))
    case Success(accountId) =>
      var check := [LoginCheck(LoginRequest(event, accountId, eventTime))];
      var rest := Trace(LoginTerminal(Forter.ParseVerdict(response.forterDecision), DenyReason));
      CountConcatAll(check, rest);
      Run(check + rest, None)
  }

  /** An APPROVE leaves the login alone: the check is the whole trace. */
  lemma ApproveDoesNothing(event: Event, eventTime: int)
    requires |event.user.identities| > 0
    ensures OnExecutePostLogin(event, eventTime, Forter.RiskResponse("APPROVE")).trace
         == [LoginCheck(LoginRequest(event, event.user.identities[0].userId, eventTime))]
  {
  }
}

=== FILE: post_login.dfy ===
/**
 * The fuller post-login handler (`exports.onExecutePostLogin` in
 * actions/onExecutePostLogin.js): classify the login, issue one risk check, and
 * act on its verdict, blocking the account when a first login is declined.
 */
module PostLogin {
  import opened Wrappers
  import opened Strings
  import Forter
  import Auth0
  import opened Effects
  import opened LoginEvent

  const AccessDeny := "sorry, something went wrong."

  predicate TestMode(event: Event) {
    Truthy(event.secrets.isTestMode)
  }

  /**
   * The customer IP sent to the risk service. Outside test mode it is the request's
   * `customerIP` as is; in test mode it goes through the email lookup, which throws
   * when the user has no email.
   */
  function ResolveCustomerIp(event: Event): (r: Result<Option<string>, Fault>)
    ensures r.Failure? <==> TestMode(event) && event.user.email.None?
    ensures r.Failure? ==> r.error == EmailUndefined
    ensures !TestMode(event) ==> r == Success(event.request.customerIP)
    ensures TestMode(event) && event.user.email.Some? ==>
      r == Success(Auth0.TestIpByEmail(event.request.customerIP, event.user.email.value))
    ensures r.Success? && r.value != event.request.customerIP ==>
      TestMode(event) && r.value in {Some(Auth0.ApprovedIp), Some(Auth0.DeclineIp), Some(Auth0.MfaIp)}
    ensures TestMode(event) && event.user.email.Some? && Includes(event.user.email.value, "approve") ==>
      r == Success(Some(Auth0.ApprovedIp))
  {
    if TestMode(event) then
      match event.user.email
      case None => Failure(EmailUndefined)
      case Some(email) => Success(Auth0.TestIpByEmail(event.request.customerIP, email))
    else
      Success(event.request.customerIP)
  }

  /** The connection information both decision requests carry. */
  function Connection(event: Event, customerIP: Option<string>): Forter.ConnectionInformation {
    Forter.ConnectionInformation(customerIP, event.request.userAgent, event.request.forterToken)
  }

  /**
   * The sign-up branch: the sign-up check, then, on DECLINE only, a token request,
   * the block of the encoded account id and a deny, in that order.
   */
  function SignupPath(check: Forter.CheckRequest, verdict: Forter.Verdict, client: Auth0.Client,
                      encodedAccountId: string, accessToken: string): (t: seq<Effect>)
    ensures |t| > 0 && t[0] == SignupCheck(check)
    ensures Count(t, SignupKind) == 1 && Count(t, LoginKind) == 0 && Count(t, MfaKind) == 0
    ensures var n := if verdict == Forter.Decline then 1 else 0;
      Count(t, TokenKind) == n && Count(t, BlockKind) == n && Count(t, DenyKind) == n
  {
    if verdict == Forter.Decline then
      var token := TokenRequest(Auth0.AccessTokenRequest(client));
      var block := Block(Auth0.BlockUserRequest(client, encodedAccountId, accessToken));
      var deny := Deny(AccessDeny);
      CountConcatAll([block], [deny]);
      CountConcatAll([token], [block] + [deny]);
      CountConcatAll([SignupCheck(check)], [token] + ([block] + [deny]));
      [SignupCheck(check)] + ([token] + ([block] + [deny]))
    else
      [SignupCheck(check)]
  }

  /**
   * The sign-in branch: the login check, then the terminal action its verdict maps to;
   * never a token request or a block.
   */
  function LoginPath(check: Forter.CheckRequest, verdict: Forter.Verdict): (t: seq<Effect>)
    ensures |t| > 0 && t[0] == LoginCheck(check)
    ensures Count(t, SignupKind) == 0 && Count(t, LoginKind) == 1
    ensures Count(t, TokenKind) == 0 && Count(t, BlockKind) == 0
    ensures Count(t, DenyKind) == (if verdict == Forter.Decline then 1 else 0)
    ensures Count(t, MfaKind) == (if verdict == Forter.VerificationRequired then 1 else 0)
  {
    var rest := Trace(LoginTerminal(verdict, AccessDeny));
    CountConcatAll([LoginCheck(check)], rest);
    [LoginCheck(check)] + rest
  }

  /**
   * One invocation of the handler. `response` is the body of the decision response to
   * whichever check is issued, `accessToken` the token the token endpoint returns,
   * `encodeUri` the runtime's `encodeURI`, and `eventTime` the value of `Date.now()`.
   */
  function OnExecutePostLogin(
    event: Event, eventTime: int, encodeUri: string -> string,
    response: Forter.RiskResponse, accessToken: string): (run: Run)
    // the only exception: a test-mode login without an email, before any request
    ensures run.fault.Some? <==> TestMode(event) && event.user.email.None?
    ensures run.fault.Some? ==> run.trace == []
    // exactly one risk check, first in the trace: the sign-up check iff this is the first login
    ensures run.fault.None? ==>
      |run.trace| > 0 && (run.trace[0].SignupCheck? || run.trace[0].LoginCheck?)
    ensures run.fault.None? ==> Count(run.trace, SignupKind) + Count(run.trace, LoginKind) == 1
    ensures run.fault.None? ==> (Count(run.trace, SignupKind) == 1 <==> event.loginsCount == 1)
    // the check addresses the raw account id and carries the resolved IP
    ensures run.fault.None? ==>
      var check := run.trace[0].check;
      && Forter.ParseAccountsUrl(event.secrets.forterTenantId, check.url)
         == Some(Forter.Route(if event.loginsCount == 1 then Forter.Signup else Forter.Login, event.user.accountId))
      && "api-version" in check.headers && check.headers["api-version"] == event.secrets.forterApiVersion
      && check.payload.accountId == event.user.accountId
      && check.payload.eventTime == eventTime
      && Success(check.payload.connectionInformation.customerIP) == ResolveCustomerIp(event)
      && check.payload.connectionInformation.userAgent == event.request.userAgent
      && check.payload.connectionInformation.forterTokenCookie == event.request.forterToken
      && check.payload.loginMethodType.None? && check.payload.loginStatus.None?
    // a block happens iff a first login is declined, and then the trace is check, token, block, deny
    ensures Count(run.trace, BlockKind) ==
      (if run.fault.None? && event.loginsCount == 1 && Forter.ParseVerdict(response.forterDecision) == Forter.Decline
       then 1 else 0)
    ensures Count(run.trace, TokenKind) == Count(run.trace, BlockKind)
    ensures Count(run.trace, BlockKind) == 1 ==>
      |run.trace| == 4 && run.trace[1].TokenRequest? && run.trace[2].Block? && run.trace[3].Deny?
    // a DECLINE is never let through, VERIFICATION_REQUIRED never blocks or denies
    ensures run.fault.None? && response.forterDecision == "DECLINE" ==>
      Count(run.trace, DenyKind) == 1 && Count(run.trace, MfaKind) == 0
    ensures response.forterDecision == "VERIFICATION_REQUIRED" ==>
      Count(run.trace, BlockKind) == 0 && Count(run.trace, DenyKind) == 0
    // at most one terminal action, and none unless the verdict calls for one
    ensures Terminals(run.trace) <= 1
    ensures response.forterDecision != "DECLINE" && response.forterDecision != "VERIFICATION_REQUIRED" ==>
      Terminals(run.trace) == 0
    ensures Count(run.trace, MfaKind) == 1 ==> event.loginsCount != 1
  {
    var verdict := Forter.ParseVerdict(response.forterDecision);
    match ResolveCustomerIp(event)
    case Failure(f) => Run([], Some(f))
    case Success(customerIP) =>
      var accountId := event.user.accountId;
      var encodedAccountId := encodeUri(accountId);
      var forter := event.secrets.ForterClient();
      var auth0 := event.secrets.Auth0Client();
      if Forter.IsFirstEvent(event.loginsCount) then
        var check := Forter.DecisionRequest(forter, Forter.Signup, accountId, Connection(event, customerIP), eventTime);
        Run(SignupPath(check, verdict, auth0, encodedAccountId, accessToken), None)
      else
        var check := Forter.DecisionRequest(forter, Forter.Login, accountId, Connection(event, customerIP), eventTime);
        Run(LoginPath(check, verdict), None)
  }

  /**
   * A declined first login: the sign-up check, the token request, the block of the
   * ENCODED account id with the fetched token, and the deny, each once and in that order.
   */
  lemma FirstLoginDeclined(
    event: Event, eventTime: int, encodeUri: string -> string,
    response: Forter.RiskResponse, accessToken: string)
    requires ResolveCustomerIp(event).Success?
    requires event.loginsCount == 1 && response.forterDecision == "DECLINE"
    ensures
      var run := OnExecutePostLogin(event, eventTime, encodeUri, response, accessToken);
      var client := event.secrets.Auth0Client();
      && run.fault.None?
      && |run.trace| == 4
      && run.trace[0].SignupCheck?
      && run.trace[1] == TokenRequest(Auth0.AccessTokenRequest(client))
      && run.trace[2] == Block(Auth0.BlockUserRequest(client, encodeUri(event.user.accountId), accessToken))
      && run.trace[3] == Deny("sorry, something went wrong.")
  {
  }

  /** A first login with any other verdict, VERIFICATION_REQUIRED included, ends after the sign-up check. */
  lemma FirstLoginNotDeclined(
    event: Event, eventTime: int, encodeUri: string -> string,
    response: Forter.RiskResponse, accessToken: string)
    requires ResolveCustomerIp(event).Success?
    requires event.loginsCount == 1 && response.forterDecision != "DECLINE"
    ensures
      var run := OnExecutePostLogin(event, eventTime, encodeUri, response, accessToken);
      run.fault.None? && |run.trace| == 1 && run.trace[0].SignupCheck?
  {
  }

  /**
   * A returning login: the login check, then a deny on DECLINE, multi-factor with
   * policy "any" on VERIFICATION_REQUIRED, and nothing otherwise.
   */
  lemma ReturningLogin(
    event: Event, eventTime: int, encodeUri: string -> string,
    response: Forter.RiskResponse, accessToken: string)
    requires ResolveCustomerIp(event).Success?
    requires event.loginsCount != 1
    ensures
      var run := OnExecutePostLogin(event, eventTime, encodeUri, response, accessToken);
      var d := response.forterDecision;
      && run.fault.None? && |run.trace| > 0 && run.trace[0].LoginCheck?
      && (d == "DECLINE" ==> run.trace[1..] == [Deny("sorry, something went wrong.")])
      && (d == "VERIFICATION_REQUIRED" ==> run.trace[1..] == [Mfa("any")])
      && (d != "DECLINE" && d != "VERIFICATION_REQUIRED" ==> run.trace[1..] == [])
  {
  }

  /**
   * A test-mode first login by "decline@x.com" sends the mock decline IP whatever the
   * request's IP, and a DECLINE then blocks the account it names.
   */
  lemma DeclineEmailScenario(realIp: Option<string>, eventTime: int, encodeUri: string -> string, accessToken: string)
    ensures
      var event := ScenarioEvent(realIp);
      var run := OnExecutePostLogin(event, eventTime, encodeUri, Forter.RiskResponse("DECLINE"), accessToken);
      && run.fault.None? && |run.trace| == 4
      && run.trace[0].check.payload.connectionInformation.customerIP == Some("0.0.0.2")
      && run.trace[2].block.url[|Auth0.UsersBase("https://idp")|..] == encodeUri("u1")
  {
    DeclineEmailIp(realIp);
    assert ResolveCustomerIp(ScenarioEvent(realIp)) == Success(Some(Auth0.DeclineIp));
    FirstLoginDeclined(ScenarioEvent(realIp), eventTime, encodeUri, Forter.RiskResponse("DECLINE"), accessToken);
  }

  /** In test mode, "decline@x.com" is given the mock decline IP whatever the real IP. */
  lemma DeclineEmailIp(realIp: Option<string>)
    ensures Auth0.TestIpByEmail(realIp, "decline@x.com") == Some(Auth0.DeclineIp)
  {
    MissingFirstChar("decline@x.com", "approve");
    assert OccursAt("decline@x.com", "decline", 0);
  }

  /** A first login in test mode by user "u1" whose email is "decline@x.com". */
  function ScenarioEvent(realIp: Option<string>): Event {
    var secrets := Secrets(Some("true"), "tenant", "2.36", "https://idp", "client", "secret");
    Event(User("u1", Some("decline@x.com"), []), Request("", realIp, "agent", None), 1, secrets)
  }
}

=== FILE: strings.dfy ===
/** String helpers: JavaScript's `String.prototype.includes` and prefix handling. */
module Strings {

  predicate IsPrefix(prefix: string, s: string) {
    |prefix| <= |s| && s[..|prefix|] == prefix
  }

  /** `sub` occurs in `s` starting at index `i`. */
  ghost predicate OccursAt(s: string, sub: string, i: int) {
    0 <= i && i + |sub| <= |s| && s[i..i + |sub|] == sub
  }

  /** An occurrence in the tail of `s` is an occurrence in `s` one place later. */
  lemma ShiftOccurrence(s: string, sub: string, i: int)
    requires |s| > 0 && 0 <= i
    ensures OccursAt(s[1..], sub, i) <==> OccursAt(s, sub, i + 1)
  {
    if 0 <= i && i + |sub| <= |s[1..]| {
      assert s[1..][i..i + |sub|] == s[i + 1..i + 1 + |sub|];
    }
  }

  /** `s.includes(sub)`: true iff `sub` occurs somewhere in `s` (the empty string occurs everywhere). */
  function Includes(s: string, sub: string): (r: bool)
    ensures r <==> exists i :: OccursAt(s, sub, i)
    decreases |s|
  {
    if IsPrefix(sub, s) then
      assert OccursAt(s, sub, 0);
      true
    else if |s| == 0 then
      false
    else
      assert (exists i :: OccursAt(s, sub, i)) <==> (exists j :: OccursAt(s[1..], sub, j)) by {
        forall j | OccursAt(s[1..], sub, j) ensures OccursAt(s, sub, j + 1) {
          ShiftOccurrence(s, sub, j);
        }
        forall i | OccursAt(s, sub, i) ensures OccursAt(s[1..], sub, i - 1) {
          assert i != 0;
          ShiftOccurrence(s, sub, i - 1);
        }
      }
      Includes(s[1..], sub)
  }

  /** Once a prefix is stripped, what remains is exactly the suffix that was appended. */
  lemma StripPrefix(prefix: string, rest: string)
    ensures IsPrefix(prefix, prefix + rest)
    ensures (prefix + rest)[|prefix|..] == rest
  {
    assert (prefix + rest)[..|prefix|] == prefix;
  }

  /** A string that lacks the first character of `sub` does not include `sub`. */
  lemma MissingFirstChar(s: string, sub: string)
    requires |sub| > 0 && sub[0] !in s
    ensures !Includes(s, sub)
  {
  }
}

=== FILE: wrappers.dfy ===
/** Optional values, and the results of steps that may throw. */
module Wrappers {

  /** A value that may be missing: JavaScript's `undefined` for an optional field. */
  datatype Option<+T> = None | Some(value: T)

  /** The outcome of a step that may throw. */
  datatype Result<+R, +E> = Success(value: R) | Failure(error: E)
}
